=== FILE: README.md ===
# QuickFlow renderer: recording, step list and AI merge, in Dafny

QuickFlow is an Electron desktop tool that records a procedure as a list of
screenshots ("steps"), lets the user title and describe each step, asks an AI
captioning service to fill titles and descriptions in, and prints the result.
This project models the bookkeeping of the renderer, `quickflow-app/src/app.js`:

- the application state (`state` record: selected source, recording flag,
  start time, steps, API key), together with the visible view and the
  procedure-title field, and the handlers that change it — choosing a source
  and starting a recording, capturing a step, stopping, resetting, editing
  and deleting steps, saving the API key, running the AI pass;
- the elapsed-time display `MM:SS` of the recording view;
- the extraction of the JSON object from the service's reply
  (`/\{[\s\S]*\}/`) and the merge of the parsed result into a step.

Everything is pure functions over immutable records and sequences. Modules:
`Optional` (nullable values), `Text` (`startsWith`, `padStart`, and the
first and last position of a character, with which the first `{` and last
`}` of the regular-expression match are computed), `Decimal` (`String(n)` for whole numbers and its reading
back), `Clock` (the timer text), `Steps` (the step list), `JsonSpan` (the
regular-expression match), `Analysis` (the AI pass), `ApiKey` (key test),
`App` (state, events, reachable-state invariant).

Calls whose results come from outside the renderer are parameters: the
clock reading `now` of `Date.now()`, the screenshot returned by the main
process (`None` for `null` or a failed call), the service's reply per step
`ask(image, stepNumber, totalSteps)`, and `JSON.parse` as `parse` (`None`
when it throws).

## Model

| member | source | states |
|---|---|---|
| Text.PadStart | quickflow-app/src/app.js:165-166 | `padStart(2, '0')` never truncates: the result is the input preceded by '0's, of length max(length, 2) |
| Decimal.FromToDecimal | quickflow-app/src/app.js:165-166 | the decimal text `String(n)` of a whole number reads back as that number |
| Decimal.ToDecimalLength | quickflow-app/src/app.js:165 | a number has a one-digit spelling iff below 10 and at most two digits iff below 100 |
| Clock.JsRem | quickflow-app/src/app.js:166 | JavaScript `%` truncates: equal to Euclidean `%` for a non-negative dividend; for a negative dividend a, the value a + 60 * ((-a) / 60), in (-60, 0] |
| Clock.JsString | quickflow-app/src/app.js:165-166 | `String(n)`, the shortest spelling and never empty: for n >= 0 digits only, reading back as n, without a leading '0' unless n is 0; for n < 0 a '-' followed by digits reading back as -n, the first of them not '0' |
| Clock.ElapsedSeconds | quickflow-app/src/app.js:164 | `Math.floor((now - start) / 1000)` is the whole number e with 1000e <= now - start < 1000(e+1); non-negative when start <= now |
| Clock.FormatClock | quickflow-app/src/app.js:164-167 | for a non-negative elapsed time the display is the minutes field, ':', the seconds field; it is at least five characters long; a negative elapsed time shows a leading '-' |
| Clock.ClockFields | quickflow-app/src/app.js:164-167 | the two fields of the display: minutes: digits only, length max(2, digits of the minutes), spelling elapsed / 60; seconds: exactly two digits spelling elapsed % 60 |
| Clock.ClockWidth | quickflow-app/src/app.js:165-167 | below 100 minutes, five characters: two digits, ':', two digits; six or more from 100 minutes on (minutes are never cut to two digits) |
| Clock.ClockRoundTrip | quickflow-app/src/app.js:164-167 | an independent reader of `MM:SS` recovers the elapsed seconds from the display |
| Clock.ClockInjective | quickflow-app/src/app.js:164-167 | two different non-negative elapsed times never show the same text |
| Clock.ResetClockIsZero | quickflow-app/src/app.js:537 | the text "00:00" written on reset is the display of zero seconds |
| Clock.NegativeElapsedClock | quickflow-app/src/app.js:164-166 | a start time after the clock reading shows "-1:-1" one second before the start |
| Steps.StepTitleInjective | quickflow-app/src/app.js:182 | default titles "Étape n" name their number unambiguously |
| Steps.CaptureStep | quickflow-app/src/app.js:177-184 | a screenshot is appended as exactly one last step with its id, timestamp and image, title "Étape (old length + 1)" and empty description; earlier steps unchanged; no screenshot, no change |
| Steps.DeleteStep | quickflow-app/src/app.js:262-263 | `splice(index, 1)`: for a valid index, one fewer step, steps before it at the same place, steps after it moved down by one; an index past the end changes nothing; negative indexes count from the end |
| Steps.DeleteRemovesOne | quickflow-app/src/app.js:262-263 | a valid delete yields `steps[..i] + steps[i+1..]` and removes exactly the multiset element `steps[i]` |
| Steps.SetTitle | quickflow-app/src/app.js:245-249 | the title edit sets the title of step i and changes no other field and no other step |
| Steps.SetDescription | quickflow-app/src/app.js:251-255 | the description edit sets the description of step i and changes no other field and no other step |
| Steps.CaptureKeepsNumbering | quickflow-app/src/app.js:178-183 | if every step carries the default title of its position, it still does after a capture |
| Steps.CaptureAllAppendsArrived | quickflow-app/src/app.js:171-193 | a run of captures appends exactly the screenshots that arrived, in order, numbered after the existing steps |
| JsonSpan.SpanBounds | quickflow-app/src/app.js:348 | the selected span matches the pattern, no match starts earlier and none from the same start is longer; none iff no match exists |
| JsonSpan.ExtractJsonSpan | quickflow-app/src/app.js:348-350 | a span is found iff some '}' follows a '{'; it starts with '{' and ends with '}' |
| JsonSpan.SpanIsFirstToLast | quickflow-app/src/app.js:348 | a span exists iff the first `{` comes before the last `}`, and it runs from the one through the other |
| Analysis.AnalysisOf | quickflow-app/src/app.js:345-356 | the analysis is null without content or without a span, otherwise the parse of the span |
| JsonSpan.SpanOfEmbedded | quickflow-app/src/app.js:348 | a JSON object with no '{' before it and no '}' after it in the reply is exactly the span selected |
| Analysis.AnalysisOfEmbedded | quickflow-app/src/app.js:345-356 | a reply made of a JSON object surrounded by prose without '{' before it or '}' after it yields the parse of that object |
| Analysis.MergeAnalysis | quickflow-app/src/app.js:287-290 | non-empty returned title replaces the old one, else the old stays; description becomes the returned one or ""; null analysis leaves the step; image, id and timestamp never change |
| Analysis.MergeIdempotent | quickflow-app/src/app.js:287-290 | merging the same analysis twice is the same as once |
| Analysis.AnalyzeFrom | quickflow-app/src/app.js:281-291 | from step i, every step before the first throwing call is merged with its own reply, that step and the later ones stay untouched, steps before i stay untouched; the loop completes iff no call throws |
| Analysis.FirstFailure | quickflow-app/src/app.js:281-285 | the first step, from i on, whose service call throws, or the end; every call before it completes |
| Analysis.AnalyzeAll | quickflow-app/src/app.js:280-291 | the loop completes iff no call throws, and then every step is merged with its reply; otherwise some step f fails, steps before f are merged and steps from f on are unchanged |
| Analysis.ProcedureTitleOf | quickflow-app/src/app.js:383 | the generated title is the reply text when non-empty, else "Procédure"; never empty |
| Analysis.ProcedureTitleStable | quickflow-app/src/app.js:383 | a generated title, taken as the reply text, generates itself |
| ApiKey.AcceptableKeyIsPrefix | quickflow-app/src/app.js:510 | the non-empty test is subsumed: a key passes iff it begins with "sk-" |
| ApiKey.SaveApiKey | quickflow-app/src/app.js:507-516 | an acceptable input becomes exactly the key; any other input leaves the key as it was |
| ApiKey.SavedKeyAllowsAnalysis | quickflow-app/src/app.js:507-516 | a saved key passes the analysis key test; a refused input does not change whether analysis is allowed |
| App.Init | quickflow-app/src/app.js:55-60 | start state: stored key loaded, source view, no source, not recording, no steps |
| App.StartRecording | quickflow-app/src/app.js:147-150 | recording on, start time set, steps empty; selected source, key and title field untouched |
| App.SelectSource | quickflow-app/src/app.js:138-141 | the chosen source is remembered and a recording starts with no steps |
| App.Capture | quickflow-app/src/app.js:171-187 | a capture changes the step list as `CaptureStep` does and nothing else of the state |
| App.ResetToStart | quickflow-app/src/app.js:532-539 | no source, not recording, no steps, empty title field, source view; key kept |
| App.StopRecording | quickflow-app/src/app.js:199-209 | recording always ends; key and start time are kept; with no steps everything resets to the start, otherwise the steps, source and title field are kept and the preview shown |
| App.AnalyzeWithAI | quickflow-app/src/app.js:271-306 | without a usable key nothing changes; else steps become the loop's result, and an empty title field takes the generated title only when the loop completed and the title call did not throw; a throwing title call keeps the field; nothing else changes |
| App.Apply | quickflow-app/src/app.js:69-92 | the handler of each action: only the key dialog changes the key, and only the key; only choosing a source sets the start time; only choosing a source, stopping or a new recording switch recording on or off; one action adds at most one step |
| App.Next | quickflow-app/src/app.js:481-497 | an action the visible view does not offer changes nothing; the source view never leads straight to the preview nor the preview to recording; while the recording view stays up, source and start time stay fixed |
| App.TimerTick | quickflow-app/src/app.js:158-167 | a tick shows nothing once recording stopped; while recording it shows exactly the zero-padded `MM:SS` display of the whole seconds since the start (a missing start counting as 0), which reads back as those seconds when the start is not after the clock reading |
| App.NextKeepsInv | quickflow-app/src/app.js:481-497 | every handler offered by the visible view keeps the invariant |
| App.RunKeepsInv | quickflow-app/src/app.js:6-12 | any sequence of user actions keeps the invariant |
| App.ReachableInv | quickflow-app/src/app.js:6-12 | in every reachable state: recording iff in the recording view, and while recording there is a source, a start time, and every step carries the default title of its position |
| App.TimerShowsElapsed | quickflow-app/src/app.js:157-167 | in a reachable state the timer stops once recording stops; while recording it shows the `MM:SS` display of the seconds since the recorded start; with recordingStartTime <= now that text reads back as those seconds and, below 100 minutes, is two digits, ':', two digits |
| App.RecordingCaptures | quickflow-app/src/app.js:171-187 | capture clicks in the recording view act on the state exactly as the run of captures on the step list |
| App.RecordingSession | quickflow-app/src/app.js:138-184 | choosing a source and attempting captures leaves exactly the arrived screenshots as steps, in order, titled "Étape 1", "Étape 2", … |

## Left out

- The auto-capture pipeline (click listener, debouncing, click-to-image coordinate mapping, pause/resume): `quickflow-app/preload.js` only names its IPC channels and no handler for them exists in `quickflow-app/main.js` or the renderer, so there is no behaviour to model. The renderer only captures on the manual button.
- `quickflow-app/main.js` and `quickflow-app/preload.js`: IPC handlers, screen capture, and file reads and writes. Their results enter the model as parameters (a screenshot or `None`, a stored key).
- DOM rendering and templating (`renderSources`, `renderSteps` markup, `generatePDF` with its missing-description confirmation, `generatePDFContent`, loading overlay, settings modal, `alert`): user interface with no state of the model. Which view is visible is modelled, since it decides which buttons can be used.
- `loadSources` and the source list: I/O with no effect on the state record.
- The network calls and `JSON.parse`: the service's reply and the parse are parameters. A reply is taken as determined by the step's image, number and total; the prompt text is not modelled.
- Analysis fields that are JSON values other than strings or null (numbers, objects): their truthiness is not modelled.
- Timer plumbing (`setInterval`, `clearInterval`): one tick is a function of the state and a clock reading. Several intervals left running by quick restarts are not modelled.
- Interleaving of asynchronous handlers (for example editing a step while the AI pass awaits a reply): each handler is taken to run to its end before the next.
- `App.Next`: which buttons each view offers is taken from the grouping of elements in app.js and `showView`; the HTML page is not part of this model, and the settings dialog is taken to be reachable from every view.
- A failed key load at start-up: if `config.json` is malformed, `JSON.parse` throws in the `get-api-key` handler (`quickflow-app/main.js:101`), the awaited `getApiKey()` in `init` throws (app.js:57), and `setupEventListeners` (app.js:66) never runs, so the renderer is left without handlers. `App.Init` takes the load to succeed or to yield no key.
- ApiKey.SaveApiKey: the write of the key to `config.json` is taken to succeed; if it threw, the key would stay unchanged.
- Clock.FormatClock: `String(n)` is modelled for integers; the exponent notation JavaScript uses from 10^21 on is not.

=== FILE: analysis.dfy ===
/** The AI pass over the steps (app.js `analyzeWithAI`, `analyzeScreenshot`,
    `generateProcedureTitle`). The captioning service and `JSON.parse` are
    parameters: `ask(image, stepNumber, totalSteps)` is the service's reply
    for one step, `parse(text)` the object `JSON.parse` builds (`None` when it
    throws). */
module Analysis {
  import opened Optional
  import opened Steps
  import opened JsonSpan

  /** The parsed reply object; a field is `None` when absent or null. */
  datatype Analysis = Analysis(title: Option<string>, description: Option<string>)

  /** One service call: it either throws or completes; `content` is the reply
      text at `choices[0].message.content`, `None` when that path is missing.
      A step's call throws on a failed request, on an unreadable response
      (a body that is not JSON, or the JSON value `null`) or on a reply
      carrying `error`; the title call has no `error` check, so there an
      error reply is `Completion(None)`, and only a failed request or an
      unreadable response throws. */
  datatype Reply = ServiceFailure | Completion(content: Option<string>)

  /** JavaScript truthiness of a string-or-absent field. */
  predicate Truthy(f: Option<string>) {
    f.Some? && f.value != ""
  }

  /** The title used when the service gives none. */
  const DefaultProcedureTitle: string := "Proc\U{E9}dure"

  /** `analyzeScreenshot` once the reply is in: the JSON span of the content,
      parsed; `None` (the function's `null`) when there is no content, no
      span, or the span does not parse. */
  function AnalysisOf(content: Option<string>, parse: string -> Option<Analysis>): (r: Option<Analysis>)
    ensures content.None? ==> r.None?
    ensures content.Some? && ExtractJsonSpan(content.value).None? ==> r.None?
    ensures content.Some? && ExtractJsonSpan(content.value).Some? ==> r == parse(ExtractJsonSpan(content.value).value)
  {
    match content
    case None => None
    case Some(c) =>
      match ExtractJsonSpan(c)
      case None => None
      case Some(span) => parse(span)
  }

  /** A reply whose content is a JSON object with prose around it (no '{'
      before it, no '}' after it) yields the parse of exactly that object. */
  lemma AnalysisOfEmbedded(before: string, json: string, after: string,
                           parse: string -> Option<Analysis>)
    requires 2 <= |json| && json[0] == '{' && json[|json| - 1] == '}'
    requires forall k :: 0 <= k < |before| ==> before[k] != '{'
    requires forall k :: 0 <= k < |after| ==> after[k] != '}'
    ensures AnalysisOf(Some(before + json + after), parse) == parse(json)
  {
    SpanOfEmbedded(before, json, after);
  }

  /** Merging one analysis into a step: a non-empty returned title replaces
      the old one, otherwise the old title stays; the description becomes the
      returned one, or "" when it is empty or missing; a `null` analysis
      leaves the step as it was. Nothing else of the step changes. */
  function MergeAnalysis(step: Step, analysis: Option<Analysis>): (r: Step)
    ensures analysis.None? ==> r == step
    ensures analysis.Some? && Truthy(analysis.value.title) ==> r.title == analysis.value.title.value
    ensures analysis.Some? && !Truthy(analysis.value.title) ==> r.title == step.title
    ensures analysis.Some? && Truthy(analysis.value.description) ==> r.description == analysis.value.description.value
    ensures analysis.Some? && !Truthy(analysis.value.description) ==> r.description == ""
    ensures r.id == step.id && r.timestamp == step.timestamp && r.image == step.image
  {
    match analysis
    case None => step
    case Some(a) =>
      step.(title := if Truthy(a.title) then a.title.value else step.title,
            description := if Truthy(a.description) then a.description.value else "")
  }

  /** Merging the same analysis twice changes nothing more. */
  lemma MergeIdempotent(step: Step, analysis: Option<Analysis>)
    ensures MergeAnalysis(MergeAnalysis(step, analysis), analysis) == MergeAnalysis(step, analysis)
  {
  }

  /** Whether the service call for step `k` throws. */
  predicate FailsAt(steps: seq<Step>, k: nat, ask: (string, nat, nat) -> Reply)
    requires k < |steps|
  {
    ask(steps[k].image, k + 1, |steps|).ServiceFailure?
  }

  /** Step `k` with the service's analysis of it merged in. */
  function Analyzed(steps: seq<Step>, k: nat, ask: (string, nat, nat) -> Reply,
                    parse: string -> Option<Analysis>): Step
    requires k < |steps|
    requires !FailsAt(steps, k, ask)
  {
    MergeAnalysis(steps[k], AnalysisOf(ask(steps[k].image, k + 1, |steps|).content, parse))
  }

  /** The position of the first step from `i` on whose service call
      throws, or `|steps|` when none does. */
  function FirstFailure(steps: seq<Step>, i: nat, ask: (string, nat, nat) -> Reply): (f: nat)
    requires i <= |steps|
    decreases |steps| - i
    ensures i <= f <= |steps|
    ensures f < |steps| ==> FailsAt(steps, f, ask)
    ensures forall k :: i <= k < f ==> !FailsAt(steps, k, ask)
  {
    if i == |steps| || FailsAt(steps, i, ask) then i else FirstFailure(steps, i + 1, ask)
  }

  /** The first failure depends only on the images and the number of steps. */
  lemma {:induction false} FirstFailureSameImages(steps: seq<Step>, next: seq<Step>, i: nat,
                                                  ask: (string, nat, nat) -> Reply)
    requires i <= |steps| == |next|
    requires forall k :: 0 <= k < |steps| ==> next[k].image == steps[k].image
    ensures FirstFailure(next, i, ask) == FirstFailure(steps, i, ask)
    decreases |steps| - i
  {
    if i < |steps| {
      assert FailsAt(next, i, ask) == FailsAt(steps, i, ask);
      FirstFailureSameImages(steps, next, i + 1, ask);
    }
  }

  /** The loop of `analyzeWithAI` from step `i` on: each step is sent with
      its number and the total, and merged as soon as its reply is in; the
      first call that throws ends the loop, leaving that step and the later
      ones untouched. The flag says whether the loop ran to the end. */
  function AnalyzeFrom(steps: seq<Step>, i: nat, ask: (string, nat, nat) -> Reply,
                       parse: string -> Option<Analysis>): (r: (seq<Step>, bool))
    requires i <= |steps|
    decreases |steps| - i
    ensures |r.0| == |steps|
    ensures r.1 <==> FirstFailure(steps, i, ask) == |steps|
    ensures forall k :: 0 <= k < i ==> r.0[k] == steps[k]
    ensures forall k :: i <= k < FirstFailure(steps, i, ask) ==> r.0[k] == Analyzed(steps, k, ask, parse)
    ensures forall k :: FirstFailure(steps, i, ask) <= k < |steps| ==> r.0[k] == steps[k]
    ensures forall k :: 0 <= k < |steps| ==> r.0[k].image == steps[k].image
  {
    if i == |steps| then (steps, true)
    else
      match ask(steps[i].image, i + 1, |steps|)
      case ServiceFailure => (steps, false)
      case Completion(c) =>
        var next := steps[i := MergeAnalysis(steps[i], AnalysisOf(c, parse))];
        var r := AnalyzeFrom(next, i + 1, ask, parse);
        AnalyzeStep(steps, next, i, ask, parse, r);
        r
  }

  /** The contract of the loop from `i + 1` on, over the list with step `i`
      merged, is the contract of the loop from `i` on over the list before. */
  lemma AnalyzeStep(steps: seq<Step>, next: seq<Step>, i: nat, ask: (string, nat, nat) -> Reply,
                    parse: string -> Option<Analysis>, r: (seq<Step>, bool))
    requires i < |steps|
    requires !FailsAt(steps, i, ask)
    requires next == steps[i := Analyzed(steps, i, ask, parse)]
    requires |r.0| == |next|
    requires r.1 <==> FirstFailure(next, i + 1, ask) == |next|
    requires forall k :: 0 <= k < i + 1 ==> r.0[k] == next[k]
    requires forall k :: i + 1 <= k < FirstFailure(next, i + 1, ask) ==> r.0[k] == Analyzed(next, k, ask, parse)
    requires forall k :: FirstFailure(next, i + 1, ask) <= k < |next| ==> r.0[k] == next[k]
    requires forall k :: 0 <= k < |next| ==> r.0[k].image == next[k].image
    ensures |r.0| == |steps|
    ensures r.1 <==> FirstFailure(steps, i, ask) == |steps|
    ensures forall k :: 0 <= k < i ==> r.0[k] == steps[k]
    ensures forall k :: i <= k < FirstFailure(steps, i, ask) ==> r.0[k] == Analyzed(steps, k, ask, parse)
    ensures forall k :: FirstFailure(steps, i, ask) <= k < |steps| ==> r.0[k] == steps[k]
    ensures forall k :: 0 <= k < |steps| ==> r.0[k].image == steps[k].image
  {
    AnalyzeSameReplies(steps, next, i, ask, parse);
    FirstFailureSameImages(steps, next, i + 1, ask);
    assert FirstFailure(steps, i, ask) == FirstFailure(steps, i + 1, ask);
  }

  /** Changing step `i` but not its image leaves every call, and every merge
      of the later steps, as it was. */
  lemma AnalyzeSameReplies(steps: seq<Step>, next: seq<Step>, i: nat,
                           ask: (string, nat, nat) -> Reply, parse: string -> Option<Analysis>)
    requires i < |steps| == |next|
    requires next[i].image == steps[i].image
    requires forall k :: 0 <= k < |steps| && k != i ==> next[k] == steps[k]
    ensures forall k :: 0 <= k < |steps| ==> next[k].image == steps[k].image
    ensures forall k :: 0 <= k < |steps| ==> FailsAt(next, k, ask) == FailsAt(steps, k, ask)
    ensures forall k :: 0 <= k < |steps| && k != i && !FailsAt(steps, k, ask) ==>
              Analyzed(next, k, ask, parse) == Analyzed(steps, k, ask, parse)
  {
  }

  /** The whole loop over the steps. */
  function AnalyzeAll(steps: seq<Step>, ask: (string, nat, nat) -> Reply,
                      parse: string -> Option<Analysis>): (r: (seq<Step>, bool))
    ensures |r.0| == |steps|
    ensures r.1 <==> forall k :: 0 <= k < |steps| ==> !FailsAt(steps, k, ask)
    ensures r.1 ==> forall k :: 0 <= k < |steps| ==> r.0[k] == Analyzed(steps, k, ask, parse)
    ensures !r.1 ==> exists f :: (&& 0 <= f < |steps| && FailsAt(steps, f, ask)
                                  && (forall k :: 0 <= k < f ==> !FailsAt(steps, k, ask) && r.0[k] == Analyzed(steps, k, ask, parse))
                                  && (forall k :: f <= k < |steps| ==> r.0[k] == steps[k]))
  {
    var r := AnalyzeFrom(steps, 0, ask, parse);
    var f := FirstFailure(steps, 0, ask);
    assert !r.1 ==> FailsAt(steps, f, ask);
    r
  }

  /** `generateProcedureTitle` once the reply is in: the reply text when it
      is non-empty, the default title otherwise. */
  function ProcedureTitleOf(content: Option<string>): (r: string)
    ensures r != ""
    ensures Truthy(content) ==> r == content.value
    ensures !Truthy(content) ==> r == DefaultProcedureTitle
  {
    if Truthy(content) then content.value else DefaultProcedureTitle
  }

  /** A generated title, taken as the reply text, generates itself: the
      default only replaces an absent or empty reply. */
  lemma ProcedureTitleStable(content: Option<string>)
    ensures ProcedureTitleOf(Some(ProcedureTitleOf(content))) == ProcedureTitleOf(content)
  {
  }
}

=== FILE: api_key.dfy ===
/** The OpenAI key handling of the renderer (app.js `saveApiKey`, and the
    key test at the head of `analyzeWithAI`). */
module ApiKey {
  import opened Optional
  import opened Text

  const KeyPrefix: string := "sk-"

  /** The save button's test, as written: the input must be non-empty and
      start with "sk-". */
  predicate AcceptableKey(input: string) {
    input != "" && StartsWith(input, KeyPrefix)
  }

  /** The emptiness test is subsumed by the prefix test: a key is accepted
      exactly when its first three characters are 's', 'k', '-'. */
  lemma AcceptableKeyIsPrefix(input: string)
    ensures AcceptableKey(input) <==> 3 <= |input| && input[0] == 's' && input[1] == 'k' && input[2] == '-'
  {
  }

  /** `saveApiKey`: an acceptable input becomes the key; any other input is
      refused and the key stays as it was. */
  function SaveApiKey(current: Option<string>, input: string): (r: Option<string>)
    ensures AcceptableKey(input) ==> r == Some(input)
    ensures !AcceptableKey(input) ==> r == current
  {
    if AcceptableKey(input) then Some(input) else current
  }

  /** The test at the head of `analyzeWithAI`: a key is present and non-empty. */
  predicate AnalysisAllowed(key: Option<string>) {
    key.Some? && key.value != ""
  }

  /** Once a key has been saved through the settings, analysis is allowed;
      a refused input never turns analysis on. */
  lemma SavedKeyAllowsAnalysis(current: Option<string>, input: string)
    ensures AcceptableKey(input) ==> AnalysisAllowed(SaveApiKey(current, input))
    ensures !AcceptableKey(input) ==> (AnalysisAllowed(SaveApiKey(current, input)) <==> AnalysisAllowed(current))
  {
  }
}

=== FILE: app.dfy ===
/** The renderer's application state (the `state` record of app.js, plus
    the visible view and the procedure-title field) and the handlers that
    drive it: choosing a source starts a recording, captures append steps,
    stopping leads to the preview (or back to the start when nothing was
    captured), the preview edits, deletes and analyses steps. */
module App {
  import opened Optional
  import opened Steps
  import opened Analysis
  import opened ApiKey
  import opened Clock
  import opened Text

  /** The three sections `showView` switches between. */
  datatype View = SourceSelection | Recording | Preview

  datatype State = State(
    view: View,
    selectedSource: Option<string>,
    isRecording: bool,
    recordingStartTime: Option<int>,
    steps: seq<Step>,
    apiKey: Option<string>,
    procedureTitle: string)

  /** What the user can do. Time readings and the results of calls into the
      main process or the AI service arrive inside the events; `titleReply`
      is the reply to the title call, for which an error reply from the
      service is `Completion(None)` (only a failed request or an unreadable
      response throws). */
  datatype Event =
    | SourceChosen(id: string, now: int)
    | CaptureClicked(shot: Option<Screenshot>)
    | StopClicked
    | NewRecordingClicked
    | TitleEdited(index: nat, value: string)
    | DescriptionEdited(index: nat, value: string)
    | DeleteClicked(index: nat)
    | AnalyzeClicked(ask: (string, nat, nat) -> Reply, parse: string -> Option<Analysis>, titleReply: Reply)
    | ProcedureTitleTyped(value: string)
    | ApiKeySubmitted(input: string)

  /** The state after `init`: the stored key (if any) loaded, the source
      list shown, nothing recorded. */
  function Init(storedKey: Option<string>): (st: State)
    ensures st.view == SourceSelection && !st.isRecording
    ensures st.selectedSource.None? && st.recordingStartTime.None? && st.steps == []
    ensures st.apiKey == storedKey && st.procedureTitle == ""
  {
    State(SourceSelection, None, false, None, [], storedKey, "")
  }

  /** `startRecording`: recording on, the clock started at `now`, the step
      list emptied, the recording view shown; the chosen source, the key and
      the title field are not touched. */
  function StartRecording(st: State, now: int): (r: State)
    ensures r.isRecording && r.view == Recording
    ensures r.steps == [] && r.recordingStartTime == Some(now)
    ensures r.selectedSource == st.selectedSource
    ensures r.apiKey == st.apiKey && r.procedureTitle == st.procedureTitle
  {
    st.(isRecording := true, recordingStartTime := Some(now), steps := [], view := Recording)
  }

  /** `selectSource`: the source is remembered, then recording starts. */
  function SelectSource(st: State, id: string, now: int): (r: State)
    ensures r.selectedSource == Some(id)
    ensures r.isRecording && r.view == Recording && r.steps == [] && r.recordingStartTime == Some(now)
    ensures r.apiKey == st.apiKey && r.procedureTitle == st.procedureTitle
  {
    StartRecording(st.(selectedSource := Some(id)), now)
  }

  /** `captureStep` on the whole state: only the step list changes. */
  function Capture(st: State, shot: Option<Screenshot>): (r: State)
    ensures r.steps == CaptureStep(st.steps, shot)
    ensures r.(steps := st.steps) == st
  {
    st.(steps := CaptureStep(st.steps, shot))
  }

  /** `resetToStart`: no source, no recording, no steps, an empty title
      field, the source list shown. The key and the last start time stay. */
  function ResetToStart(st: State): (r: State)
    ensures r.view == SourceSelection && !r.isRecording
    ensures r.selectedSource.None? && r.steps == [] && r.procedureTitle == ""
    ensures r.apiKey == st.apiKey && r.recordingStartTime == st.recordingStartTime
  {
    st.(selectedSource := None, isRecording := false, steps := [], procedureTitle := "", view := SourceSelection)
  }

  /** `stopRecording`: recording always ends. With no step captured the
      application resets to the start; otherwise the steps are kept as they
      are and the preview is shown. */
  function StopRecording(st: State): (r: State)
    ensures !r.isRecording
    ensures r.apiKey == st.apiKey && r.recordingStartTime == st.recordingStartTime
    ensures st.steps == [] ==> r.view == SourceSelection && r.selectedSource.None? && r.steps == [] && r.procedureTitle == ""
    ensures st.steps != [] ==> r.view == Preview && r.steps == st.steps
    ensures st.steps != [] ==> r.selectedSource == st.selectedSource && r.procedureTitle == st.procedureTitle
  {
    var stopped := st.(isRecording := false);
    if |stopped.steps| == 0 then ResetToStart(stopped) else stopped.(view := Preview)
  }

  /** `analyzeWithAI`. Without a usable key nothing happens (the settings
      open instead). Otherwise the steps go through the analysis loop; when
      it runs to the end and the title field is empty, the field takes the
      generated title, unless that call throws. Only the steps and the title
      field can change. */
  function AnalyzeWithAI(st: State, ask: (string, nat, nat) -> Reply,
                         parse: string -> Option<Analysis>, titleReply: Reply): (r: State)
    ensures !AnalysisAllowed(st.apiKey) ==> r == st
    ensures r.(steps := st.steps, procedureTitle := st.procedureTitle) == st
    ensures AnalysisAllowed(st.apiKey) ==> r.steps == AnalyzeAll(st.steps, ask, parse).0
    ensures r.procedureTitle != st.procedureTitle ==>
              st.procedureTitle == "" && AnalysisAllowed(st.apiKey) && AnalyzeAll(st.steps, ask, parse).1
    ensures (&& AnalysisAllowed(st.apiKey) && AnalyzeAll(st.steps, ask, parse).1
             && st.procedureTitle == "" && titleReply.Completion?)
            ==> r.procedureTitle == ProcedureTitleOf(titleReply.content)
    ensures titleReply.ServiceFailure? ==> r.procedureTitle == st.procedureTitle
  {
    if !AnalysisAllowed(st.apiKey) then st
    else
      var run := AnalyzeAll(st.steps, ask, parse);
      var analyzed := st.(steps := run.0);
      if !run.1 || st.procedureTitle != "" then analyzed
      else
        match titleReply
        case ServiceFailure => analyzed
        case Completion(c) => analyzed.(procedureTitle := ProcedureTitleOf(c))
  }

  /** Which events the visible view offers: `showView` hides the other two
      sections, so their buttons and fields cannot be used. The settings
      dialog is reachable from every view. */
  predicate Offered(view: View, ev: Event) {
    match ev
    case ApiKeySubmitted(_) => true
    case SourceChosen(_, _) => view == SourceSelection
    case CaptureClicked(_) => view == Recording
    case StopClicked => view == Recording
    case _ => view == Preview
  }

  /** The handler each event runs (the listeners `setupEventListeners`,
      `renderSources` and `renderSteps` attach). Only the settings change
      the key, only choosing a source starts the clock, only choosing a
      source, stopping or a new recording switch recording on or off, and
      one action adds at most one step. */
  function Apply(st: State, ev: Event): (r: State)
    ensures !ev.ApiKeySubmitted? ==> r.apiKey == st.apiKey
    ensures ev.ApiKeySubmitted? ==> r.(apiKey := st.apiKey) == st
    ensures r.recordingStartTime != st.recordingStartTime ==> ev.SourceChosen?
    ensures r.isRecording != st.isRecording ==> ev.SourceChosen? || ev.StopClicked? || ev.NewRecordingClicked?
    ensures |r.steps| <= |st.steps| + 1
  {
    match ev
    case SourceChosen(id, now) => SelectSource(st, id, now)
    case CaptureClicked(shot) => Capture(st, shot)
    case StopClicked => StopRecording(st)
    case NewRecordingClicked => ResetToStart(st)
    case TitleEdited(i, v) => st.(steps := SetTitle(st.steps, i, v))
    case DescriptionEdited(i, v) => st.(steps := SetDescription(st.steps, i, v))
    case DeleteClicked(i) => st.(steps := DeleteStep(st.steps, i))
    case AnalyzeClicked(ask, parse, titleReply) => AnalyzeWithAI(st, ask, parse, titleReply)
    case ProcedureTitleTyped(v) => st.(procedureTitle := v)
    case ApiKeySubmitted(input) => st.(apiKey := SaveApiKey(st.apiKey, input))
  }

  /** One user action: an event the view does not offer cannot happen. So
      the views follow source selection -> recording -> preview or back to
      source selection, and while the recording view stays up its source and
      start time are fixed. */
  function Next(st: State, ev: Event): (r: State)
    ensures !Offered(st.view, ev) ==> r == st
    ensures st.view == SourceSelection ==> r.view != Preview
    ensures st.view == Preview ==> r.view != Recording
    ensures st.view == Recording && r.view == Recording ==>
              r.selectedSource == st.selectedSource && r.recordingStartTime == st.recordingStartTime
  {
    if Offered(st.view, ev) then Apply(st, ev) else st
  }

  function Run(st: State, evs: seq<Event>): State
    decreases |evs|
  {
    if |evs| == 0 then st else Run(Next(st, evs[0]), evs[1..])
  }

  /** One tick of the recording clock: `None` once recording has stopped
      (the interval clears itself), otherwise the text for the seconds since
      the start. A missing start time reads as 0, as `Date.now() - null`
      does. */
  function TimerTick(st: State, now: int): (r: Option<string>)
    ensures !st.isRecording ==> r.None?
    ensures st.isRecording ==> r == Some(FormatClock(ElapsedSeconds(st.recordingStartTime.GetOr(0), now)))
    ensures st.isRecording && st.recordingStartTime.GetOr(0) <= now ==>
              ParseClock(r.value) == Some(ElapsedSeconds(st.recordingStartTime.GetOr(0), now))
  {
    if !st.isRecording then None
    else
      var e := ElapsedSeconds(st.recordingStartTime.GetOr(0), now);
      assert e >= 0 ==> ParseClock(FormatClock(e)) == Some(e) by {
        if e >= 0 { ClockRoundTrip(e); }
      }
      Some(FormatClock(e))
  }

  /** What holds in every state the application can reach. */
  predicate Inv(st: State) {
    && (st.isRecording <==> st.view == Recording)
    && (st.isRecording ==> st.selectedSource.Some? && st.recordingStartTime.Some? && NumberedTitles(st.steps))
    && (st.view == Preview ==> st.selectedSource.Some?)
    && (st.view == SourceSelection ==> st.selectedSource.None? && st.steps == [])
  }

  /** Every handler offered in a state keeps the invariant. */
  lemma NextKeepsInv(st: State, ev: Event)
    requires Inv(st)
    ensures Inv(Next(st, ev))
  {
    if Offered(st.view, ev) && ev.CaptureClicked? {
      CaptureKeepsNumbering(st.steps, ev.shot);
    }
  }

  lemma {:induction false} RunKeepsInv(st: State, evs: seq<Event>)
    requires Inv(st)
    ensures Inv(Run(st, evs))
    decreases |evs|
  {
    if |evs| > 0 {
      NextKeepsInv(st, evs[0]);
      RunKeepsInv(Next(st, evs[0]), evs[1..]);
    }
  }

  /** Whatever the user does from the start, the invariant holds: recording
      happens exactly in the recording view, with a source and a start time,
      and with every step still titled by its position. */
  lemma ReachableInv(storedKey: Option<string>, evs: seq<Event>)
    ensures Inv(Run(Init(storedKey), evs))
  {
    RunKeepsInv(Init(storedKey), evs);
  }

  /** In a reachable recording state the clock shows the `MM:SS` display of
      the whole seconds since the start: below 100 minutes, two digits, ':',
      two digits, reading back as those seconds; once recording stops, it
      stops. */
  lemma TimerShowsElapsed(st: State, now: int)
    requires Inv(st)
    ensures !st.isRecording ==> TimerTick(st, now).None?
    ensures st.isRecording ==>
              TimerTick(st, now) == Some(FormatClock(ElapsedSeconds(st.recordingStartTime.value, now)))
    ensures st.isRecording && st.recordingStartTime.value <= now ==>
              var e := ElapsedSeconds(st.recordingStartTime.value, now);
              var text := TimerTick(st, now).value;
              && ParseClock(text) == Some(e)
              && (e < 6000 ==> |text| == 5 && text[2] == ':' && AllDigits(text[..2]) && AllDigits(text[3..]))
  {
    if st.isRecording && st.recordingStartTime.value <= now {
      var e := ElapsedSeconds(st.recordingStartTime.value, now);
      assert TimerTick(st, now) == Some(FormatClock(e));
      ClockWidth(e);
    }
  }

  /** Capture clicks, one per capture attempt. */
  function CaptureClicks(shots: seq<Option<Screenshot>>): (evs: seq<Event>)
    ensures |evs| == |shots|
    ensures forall k :: 0 <= k < |shots| ==> evs[k] == CaptureClicked(shots[k])
  {
    seq(|shots|, k requires 0 <= k < |shots| => CaptureClicked(shots[k]))
  }

  /** Capture clicks in the recording view act exactly as the run of
      captures on the step list. */
  lemma {:induction false} RecordingCaptures(st: State, shots: seq<Option<Screenshot>>)
    requires st.view == Recording
    ensures Run(st, CaptureClicks(shots)) == st.(steps := CaptureAll(st.steps, shots))
    decreases |shots|
  {
    if |shots| > 0 {
      var evs := CaptureClicks(shots);
      assert evs[1..] == CaptureClicks(shots[1..]);
      RecordingCaptures(Next(st, evs[0]), shots[1..]);
    }
  }

  /** A whole recording: after choosing a source and attempting captures,
      the steps are exactly the screenshots that arrived, in order, titled
      "Étape 1", "Étape 2", … with empty descriptions. */
  lemma RecordingSession(st: State, id: string, now: int, shots: seq<Option<Screenshot>>)
    requires st.view == SourceSelection
    ensures var r := Run(st, [SourceChosen(id, now)] + CaptureClicks(shots));
            && r.isRecording && r.view == Recording && r.selectedSource == Some(id)
            && r.steps == NumberedFrom(Arrived(shots), 0)
  {
    var evs := [SourceChosen(id, now)] + CaptureClicks(shots);
    var started := SelectSource(st, id, now);
    assert evs[1..] == CaptureClicks(shots);
    assert Run(st, evs) == Run(started, CaptureClicks(shots));
    RecordingCaptures(started, shots);
    CaptureAllAppendsArrived([], shots);
  }
}

=== FILE: clock.dfy ===
/** The elapsed-time display of the recording view (app.js `startTimer`):
    whole seconds since the start, shown as minutes and seconds, each padded
    with '0' to at least two characters. */
module Clock {
  import opened Optional
  import opened Text
  import opened Decimal

  /** What the display shows once a session is reset. */
  const ResetClockText: string := "00:00"

  /** `String(n)` for a whole Number: the shortest decimal spelling, with a
      minus sign before the digits of a negative value. */
  function JsString(n: int): (s: string)
    ensures 1 <= |s|
    ensures n >= 0 ==> AllDigits(s) && FromDecimal(s) == n
    ensures n >= 0 && |s| > 1 ==> s[0] != '0'
    ensures n < 0 ==> 2 <= |s| && s[0] == '-' && AllDigits(s[1..]) && FromDecimal(s[1..]) == -n
    ensures n < 0 ==> s[1] != '0'
  {
    FromToDecimal(if n < 0 then -n else n);
    if n < 0 then
      var s := "-" + ToDecimal(-n);
      assert s[1..] == ToDecimal(-n);
      s
    else ToDecimal(n)
  }

  /** JavaScript's `a % b` for `b > 0`: the remainder takes the sign of `a`
      (truncating division), unlike Dafny's Euclidean `%`. */
  function JsRem(a: int, b: int): (r: int)
    requires b > 0
    ensures a >= 0 ==> r == a % b
    ensures a < 0 ==> -b < r <= 0
    ensures a < 0 ==> r == a + b * ((-a) / b)
  {
    if a >= 0 then a % b else -((-a) % b)
  }

  /** `Math.floor((now - start) / 1000)`: the whole seconds between two
      millisecond clock readings, rounded down. */
  function ElapsedSeconds(start: int, now: int): (e: int)
    ensures 1000 * e <= now - start < 1000 * (e + 1)
    ensures start <= now ==> e >= 0
  {
    (now - start) / 1000
  }

  /** The `MM:SS` text for `elapsed` whole seconds. Minutes are
      `Math.floor(elapsed / 60)`; Dafny's `/` by a positive divisor rounds
      down as `Math.floor` does. */
  function FormatClock(elapsed: int): (r: string)
    ensures elapsed >= 0 ==> r == MinutesField(elapsed) + ":" + SecondsField(elapsed)
    ensures |r| >= 5
    ensures elapsed < 0 ==> r[0] == '-'
  {
    var minutes := PadStart(JsString(elapsed / 60), 2, '0');
    var seconds := PadStart(JsString(JsRem(elapsed, 60)), 2, '0');
    minutes + ":" + seconds
  }

  /** An independent reader of the display: at least one digit, ':', then
      exactly two digits below 60; the total number of seconds shown. */
  function ParseClock(s: string): Option<nat> {
    if 4 <= |s| && s[|s| - 3] == ':' && AllDigits(s[..|s| - 3]) && AllDigits(s[|s| - 2..])
       && FromDecimal(s[|s| - 2..]) < 60
    then Some(60 * FromDecimal(s[..|s| - 3]) + FromDecimal(s[|s| - 2..]))
    else None
  }

  /** A padded decimal field reads back as the number it spells. */
  lemma PaddedDecimal(n: nat, width: nat)
    ensures AllDigits(PadStart(ToDecimal(n), width, '0'))
    ensures FromDecimal(PadStart(ToDecimal(n), width, '0')) == n
  {
    var d := ToDecimal(n);
    FromToDecimal(n);
    if |d| < width {
      LeadingZerosIgnored(width - |d|, d);
    }
  }

  /** The two padded fields of the display of a non-negative time. */
  function MinutesField(elapsed: nat): string {
    PadStart(ToDecimal(elapsed / 60), 2, '0')
  }

  function SecondsField(elapsed: nat): string {
    PadStart(ToDecimal(elapsed % 60), 2, '0')
  }

  /** The two fields of the display of a non-negative elapsed time (which
      `FormatClock` joins with ':'): a minutes field of at least two digits
      that is never truncated and a seconds field of exactly two digits,
      spelling `elapsed / 60` and `elapsed % 60` (so seconds are below 60,
      and 60 * minutes + seconds is `elapsed`). */
  lemma ClockFields(elapsed: nat)
    ensures var m := ToDecimal(elapsed / 60);
            |MinutesField(elapsed)| == if |m| >= 2 then |m| else 2
    ensures AllDigits(MinutesField(elapsed)) && FromDecimal(MinutesField(elapsed)) == elapsed / 60
    ensures |SecondsField(elapsed)| == 2
    ensures AllDigits(SecondsField(elapsed)) && FromDecimal(SecondsField(elapsed)) == elapsed % 60
  {
    ToDecimalLength(elapsed % 60);
    PaddedDecimal(elapsed / 60, 2);
    PaddedDecimal(elapsed % 60, 2);
  }

  /** The reader accepts a field of digits, ':', and two digits below 60. */
  lemma ParseDisplay(m: string, s: string)
    requires 1 <= |m| && AllDigits(m)
    requires |s| == 2 && AllDigits(s) && FromDecimal(s) < 60
    ensures ParseClock(m + ":" + s) == Some(60 * FromDecimal(m) + FromDecimal(s))
  {
    var r := m + ":" + s;
    assert r[..|r| - 3] == m;
    assert r[|r| - 2..] == s;
  }

  /** Fields spelling `elapsed / 60` and `elapsed % 60` read back as
      `elapsed`. */
  lemma ParseFields(m: string, s: string, elapsed: nat)
    requires 1 <= |m| && AllDigits(m) && FromDecimal(m) == elapsed / 60
    requires |s| == 2 && AllDigits(s) && FromDecimal(s) == elapsed % 60
    ensures ParseClock(m + ":" + s) == Some(elapsed)
  {
    ParseDisplay(m, s);
  }

  /** Two fields joined by ':' sit at the two ends of the text. */
  lemma JoinFields(m: string, s: string)
    ensures var t := m + ":" + s;
            |t| == |m| + 1 + |s| && t[|m|] == ':' && t[..|m|] == m && t[|m| + 1..] == s
  {
    var t := m + ":" + s;
    assert t[..|m|] == m;
    assert t[|m| + 1..] == s;
  }

  /** Five characters below 100 minutes, two digits, ':' and two digits;
      from 100 minutes on, the minutes field grows instead of being cut to
      two digits. */
  lemma ClockWidth(elapsed: nat)
    ensures elapsed < 6000 ==> |FormatClock(elapsed)| == 5
    ensures elapsed < 6000 ==>
              var t := FormatClock(elapsed);
              t[2] == ':' && AllDigits(t[..2]) && AllDigits(t[3..])
    ensures elapsed >= 6000 ==> |FormatClock(elapsed)| >= 6
  {
    ClockFields(elapsed);
    JoinFields(MinutesField(elapsed), SecondsField(elapsed));
    var m := elapsed / 60;
    ToDecimalLength(m);
    assert elapsed < 6000 <==> m < 100;
  }

  /** Reading the display back gives the elapsed seconds it was made from. */
  lemma ClockRoundTrip(elapsed: nat)
    ensures ParseClock(FormatClock(elapsed)) == Some(elapsed)
  {
    ClockFields(elapsed);
    ParseFields(MinutesField(elapsed), SecondsField(elapsed), elapsed);
  }

  /** Two different non-negative elapsed times never show the same text. */
  lemma ClockInjective(a: nat, b: nat)
    ensures FormatClock(a) == FormatClock(b) ==> a == b
  {
    ClockRoundTrip(a);
    ClockRoundTrip(b);
  }

  /** The text written on reset is the display of zero elapsed seconds. */
  lemma ResetClockIsZero()
    ensures FormatClock(0) == ResetClockText
  {
    assert PadStart(ToDecimal(0), 2, '0') == "00";
  }

  /** A start time later than the clock reading (the wall clock moved back)
      shows negative fields: one second before the start reads "-1:-1". */
  lemma NegativeElapsedClock()
    ensures FormatClock(-1) == "-1:-1"
  {
    assert JsString(-1 / 60) == "-1";
    assert JsString(JsRem(-1, 60)) == "-1";
  }
}

=== FILE: decimal.dfy ===
/** Decimal text of non-negative integers: what JavaScript's `String(n)`
    produces for a whole, non-negative Number, and its reading back. */
module Decimal {
  import opened Text

  function DigitChar(d: nat): (c: char)
    requires d < 10
    ensures IsDigit(c)
  {
    (48 + d) as char
  }

  function DigitValue(c: char): (d: nat)
    requires IsDigit(c)
    ensures d < 10
  {
    c as int - 48
  }

  /** Shortest decimal spelling of `n`: at least one digit, no leading zero. */
  function ToDecimal(n: nat): (s: string)
    ensures 1 <= |s|
    ensures AllDigits(s)
    ensures |s| > 1 ==> s[0] != '0'
  {
    if n < 10 then [DigitChar(n)] else ToDecimal(n / 10) + [DigitChar(n % 10)]
  }

  /** The value of a string of decimal digits (empty reads as 0). */
  function FromDecimal(s: string): nat
    requires AllDigits(s)
  {
    if |s| == 0 then 0 else 10 * FromDecimal(s[..|s| - 1]) + DigitValue(s[|s| - 1])
  }

  /** Reading back the decimal text of `n` yields `n`. */
  lemma {:induction false} FromToDecimal(n: nat)
    ensures FromDecimal(ToDecimal(n)) == n
  {
    if n >= 10 {
      var s := ToDecimal(n);
      assert s[..|s| - 1] == ToDecimal(n / 10);
      FromToDecimal(n / 10);
    }
  }

  /** Different numbers have different decimal spellings. */
  lemma ToDecimalInjective(a: nat, b: nat)
    ensures ToDecimal(a) == ToDecimal(b) ==> a == b
  {
    FromToDecimal(a);
    FromToDecimal(b);
  }

  /** A leading zero does not change the value read. */
  lemma {:induction false} LeadingZeroIgnored(s: string)
    requires AllDigits(s)
    ensures FromDecimal(['0'] + s) == FromDecimal(s)
  {
    if |s| > 0 {
      var t := ['0'] + s;
      assert t[..|t| - 1] == ['0'] + s[..|s| - 1];
      LeadingZeroIgnored(s[..|s| - 1]);
    }
  }

  /** Any number of leading zeros does not change the value read. */
  lemma {:induction false} LeadingZerosIgnored(k: nat, s: string)
    requires AllDigits(s)
    ensures AllDigits(Repeat('0', k) + s)
    ensures FromDecimal(Repeat('0', k) + s) == FromDecimal(s)
  {
    if k > 0 {
      LeadingZerosIgnored(k - 1, s);
      var t := Repeat('0', k - 1) + s;
      assert Repeat('0', k) == ['0'] + Repeat('0', k - 1);
      assert Repeat('0', k) + s == ['0'] + t;
      LeadingZeroIgnored(t);
      assert FromDecimal(Repeat('0', k) + s) == FromDecimal(['0'] + t);
    } else {
      assert Repeat('0', k) + s == s;
    }
  }

  /** The spelling of `n` has one digit exactly below 10, and at most two
      exactly below 100. */
  lemma {:induction false} ToDecimalLength(n: nat)
    ensures |ToDecimal(n)| == 1 <==> n < 10
    ensures |ToDecimal(n)| <= 2 <==> n < 100
  {
    if n >= 10 {
      ToDecimalLength(n / 10);
    }
  }
}

=== FILE: json_span.dfy ===
/** The JSON extraction applied to a model reply before `JSON.parse`:
    `content.match(/\{[\s\S]*\}/)`. JavaScript's `match` takes the leftmost
    position where the pattern matches and, because `[\s\S]*` is greedy,
    the longest match from there. */
module JsonSpan {
  import opened Optional
  import opened Text

  /** `s[i..j]` is matched by the pattern: it opens with '{', closes with
      '}', and is at least two characters long (anything goes in between). */
  predicate Matches(s: string, i: int, j: int) {
    0 <= i && i + 2 <= j <= |s| && s[i] == '{' && s[j - 1] == '}'
  }

  /** The bounds `(i, j)` of the span the regular expression selects. */
  function SpanBounds(s: string): (r: Option<(nat, nat)>)
    ensures r.Some? ==> Matches(s, r.value.0, r.value.1)
    ensures r.Some? ==> forall i, j :: 0 <= i < r.value.0 ==> !Matches(s, i, j)
    ensures r.Some? ==> forall j :: r.value.1 < j ==> !Matches(s, r.value.0, j)
    ensures r.None? ==> forall i, j :: !Matches(s, i, j)
  {
    match (IndexOf(s, '{'), LastIndexOf(s, '}'))
    case (Some(i), Some(k)) =>
      if i < k then Some((i, k + 1)) else None
    case _ => None
  }

  /** The matched text, `jsonMatch[0]`, or `None` when nothing matches. */
  function ExtractJsonSpan(s: string): (r: Option<string>)
    ensures r.Some? ==> 2 <= |r.value| && r.value[0] == '{' && r.value[|r.value| - 1] == '}'
    ensures r.Some? <==> exists i, j :: 0 <= i < j < |s| && s[i] == '{' && s[j] == '}'
  {
    match SpanBounds(s)
    case None => None
    case Some((i, j)) => Some(s[i..j])
  }

  /** A span exists exactly when the first '{' comes before the last '}',
      and it runs from the one through the other. */
  lemma SpanIsFirstToLast(s: string)
    ensures var i := IndexOf(s, '{');
            var k := LastIndexOf(s, '}');
            && (ExtractJsonSpan(s).Some? <==> i.Some? && k.Some? && i.value < k.value)
            && (ExtractJsonSpan(s).Some? ==> ExtractJsonSpan(s) == Some(s[i.value..k.value + 1]))
  {
    var i := IndexOf(s, '{');
    var k := LastIndexOf(s, '}');
    if i.Some? && k.Some? && i.value < k.value {
      assert SpanBounds(s) == Some((i.value, k.value + 1));
    } else {
      assert SpanBounds(s) == None;
    }
  }

  /** A JSON object written between prose that opens no '{' before it and
      closes no '}' after it is exactly the span selected. */
  lemma SpanOfEmbedded(before: string, json: string, after: string)
    requires 2 <= |json| && json[0] == '{' && json[|json| - 1] == '}'
    requires forall k :: 0 <= k < |before| ==> before[k] != '{'
    requires forall k :: 0 <= k < |after| ==> after[k] != '}'
    ensures ExtractJsonSpan(before + json + after) == Some(json)
  {
    var s := before + json + after;
    var i, j := |before|, |before| + |json|;
    assert Matches(s, i, j);
    var b := SpanBounds(s);
    assert b.value.0 == i by {
      assert s[b.value.0] == '{';
    }
    assert b.value.1 == j by {
      assert s[b.value.1 - 1] == '}';
    }
    assert s[i..j] == json;
  }
}

=== FILE: optional.dfy ===
/** The null-or-value shape that the renderer uses for its nullable fields
    (selected source, start time, API key) and for "no result" returns. */
module Optional {

  datatype Option<+T> = None | Some(value: T) {

    /** The carried value, or `default` when there is none. */
    function GetOr(default: T): T {
      match this
      case Some(v) => v
      case None => default
    }
  }
}

=== FILE: steps.dfy ===
/** The step list of a recording: appending a capture, removing a step by
    index (`splice`), and editing one step's title or description. */
module Steps {
  import opened Optional
  import opened Decimal

  /** What the main process returns for a capture (main.js builds it from
      the thumbnail of the selected source). */
  datatype Screenshot = Screenshot(id: int, timestamp: string, image: string)

  /** One recorded step as the renderer keeps it. */
  datatype Step = Step(id: int, timestamp: string, image: string, title: string, description: string)

  /** The default title of the `n`-th step: "Étape n". */
  function StepTitle(n: nat): string {
    "\U{C9}tape " + ToDecimal(n)
  }

  /** The step created from a screenshot when it becomes the `n`-th step. */
  function NewStep(shot: Screenshot, n: nat): Step {
    Step(shot.id, shot.timestamp, shot.image, StepTitle(n), "")
  }

  /** Default titles number the steps: the `n`-th title names `n` only. */
  lemma StepTitleInjective(a: nat, b: nat)
    ensures StepTitle(a) == StepTitle(b) ==> a == b
  {
    if StepTitle(a) == StepTitle(b) {
      var p := "\U{C9}tape ";
      assert StepTitle(a)[|p|..] == ToDecimal(a);
      assert StepTitle(b)[|p|..] == ToDecimal(b);
      ToDecimalInjective(a, b);
    }
  }

  /** `captureStep`: a screenshot (`None` when the main process found no
      such source, or the call failed) is appended as the last step, with
      the next number as its title and an empty description. */
  function CaptureStep(steps: seq<Step>, shot: Option<Screenshot>): (r: seq<Step>)
    ensures shot.None? ==> r == steps
    ensures shot.Some? ==> |r| == |steps| + 1 && r[..|steps|] == steps
    ensures shot.Some? ==> (&& r[|steps|].image == shot.value.image
                            && r[|steps|].id == shot.value.id
                            && r[|steps|].timestamp == shot.value.timestamp
                            && r[|steps|].title == StepTitle(|steps| + 1)
                            && r[|steps|].description == "")
  {
    match shot
    case None => steps
    case Some(s) => steps + [NewStep(s, |steps| + 1)]
  }

  /** `steps.splice(index, 1)`: a negative index counts from the end (and is
      clamped to 0), an index at or past the end removes nothing. */
  function DeleteStep(steps: seq<Step>, index: int): (r: seq<Step>)
    ensures 0 <= index < |steps| ==> |r| == |steps| - 1
    ensures 0 <= index < |steps| ==> forall k :: 0 <= k < index ==> r[k] == steps[k]
    ensures 0 <= index < |steps| ==> forall k :: index <= k < |r| ==> r[k] == steps[k + 1]
    ensures index >= |steps| ==> r == steps
    ensures -|steps| <= index < 0 ==> r == steps[..|steps| + index] + steps[|steps| + index + 1..]
    ensures index < -|steps| && |steps| > 0 ==> r == steps[1..]
    ensures |steps| == 0 ==> r == []
  {
    var start := if index < 0 then (if |steps| + index < 0 then 0 else |steps| + index) else index;
    if start < |steps| then steps[..start] + steps[start + 1..] else steps
  }

  /** Deleting at a valid index removes exactly that step: the multiset of
      steps loses `steps[index]` and nothing else. */
  lemma DeleteRemovesOne(steps: seq<Step>, index: int)
    requires 0 <= index < |steps|
    ensures multiset(DeleteStep(steps, index)) + multiset{steps[index]} == multiset(steps)
    ensures DeleteStep(steps, index) == steps[..index] + steps[index + 1..]
  {
    var r := DeleteStep(steps, index);
    assert steps == steps[..index] + [steps[index]] + steps[index + 1..];
    assert r == steps[..index] + steps[index + 1..];
  }

  /** The change handler of a title input: only the title of step `index`
      changes. An index with no step leaves the list as it was (the handler
      would stop on a TypeError before assigning). */
  function SetTitle(steps: seq<Step>, index: nat, value: string): (r: seq<Step>)
    ensures |r| == |steps|
    ensures forall k :: 0 <= k < |steps| && k != index ==> r[k] == steps[k]
    ensures index < |steps| ==> r[index].title == value
    ensures index < |steps| ==> r[index].(title := steps[index].title) == steps[index]
  {
    if index < |steps| then steps[index := steps[index].(title := value)] else steps
  }

  /** The change handler of a description textarea: only the description of
      step `index` changes. */
  function SetDescription(steps: seq<Step>, index: nat, value: string): (r: seq<Step>)
    ensures |r| == |steps|
    ensures forall k :: 0 <= k < |steps| && k != index ==> r[k] == steps[k]
    ensures index < |steps| ==> r[index].description == value
    ensures index < |steps| ==> r[index].(description := steps[index].description) == steps[index]
  {
    if index < |steps| then steps[index := steps[index].(description := value)] else steps
  }

  /** Every step still carries the default title of its position. */
  predicate NumberedTitles(steps: seq<Step>) {
    forall k :: 0 <= k < |steps| ==> steps[k].title == StepTitle(k + 1)
  }

  /** Capturing keeps the default numbering intact. */
  lemma CaptureKeepsNumbering(steps: seq<Step>, shot: Option<Screenshot>)
    requires NumberedTitles(steps)
    ensures NumberedTitles(CaptureStep(steps, shot))
  {
  }

  /** A run of capture attempts, one after the other. */
  function CaptureAll(steps: seq<Step>, shots: seq<Option<Screenshot>>): seq<Step>
    decreases |shots|
  {
    if |shots| == 0 then steps else CaptureAll(CaptureStep(steps, shots[0]), shots[1..])
  }

  /** The screenshots that arrived, in order. */
  function Arrived(shots: seq<Option<Screenshot>>): (r: seq<Screenshot>)
    ensures |r| <= |shots|
  {
    if |shots| == 0 then []
    else if shots[0].Some? then [shots[0].value] + Arrived(shots[1..])
    else Arrived(shots[1..])
  }

  /** Steps made from `shots`, numbered from `from + 1` on. */
  function NumberedFrom(shots: seq<Screenshot>, from: nat): (r: seq<Step>)
    ensures |r| == |shots|
    ensures forall k :: 0 <= k < |shots| ==> r[k] == NewStep(shots[k], from + k + 1)
  {
    seq(|shots|, k requires 0 <= k < |shots| => NewStep(shots[k], from + k + 1))
  }

  /** Numbering a screenshot followed by others. */
  lemma NumberedFromCons(shot: Screenshot, rest: seq<Screenshot>, from: nat)
    ensures NumberedFrom([shot] + rest, from) == [NewStep(shot, from + 1)] + NumberedFrom(rest, from + 1)
  {
    var l := NumberedFrom([shot] + rest, from);
    var r := [NewStep(shot, from + 1)] + NumberedFrom(rest, from + 1);
    assert forall k :: 0 <= k < |l| ==> l[k] == r[k];
  }

  /** A run of captures appends exactly the screenshots that arrived, in
      arrival order, numbered after the steps already there; failed
      captures leave no trace. */
  lemma {:induction false} CaptureAllAppendsArrived(steps: seq<Step>, shots: seq<Option<Screenshot>>)
    ensures CaptureAll(steps, shots) == steps + NumberedFrom(Arrived(shots), |steps|)
    decreases |shots|
  {
    if |shots| > 0 {
      var next := CaptureStep(steps, shots[0]);
      CaptureAllAppendsArrived(next, shots[1..]);
      if shots[0].Some? {
        assert Arrived(shots) == [shots[0].value] + Arrived(shots[1..]);
        NumberedFromCons(shots[0].value, Arrived(shots[1..]), |steps|);
        assert next == steps + [NewStep(shots[0].value, |steps| + 1)];
      } else {
        assert Arrived(shots) == Arrived(shots[1..]);
        assert next == steps;
      }
    } else {
      assert NumberedFrom(Arrived(shots), |steps|) == [];
    }
  }
}

=== FILE: text.dfy ===
/** String helpers: `startsWith` and `padStart` as the renderer calls them,
    and `IndexOf`/`LastIndexOf`, the first and last position of a character,
    with which the first '{' and last '}' selected by the regular expression
    `/\{[\s\S]*\}/` are computed. */
module Text {
  import opened Optional

  predicate IsDigit(c: char) {
    '0' <= c <= '9'
  }

  predicate AllDigits(s: string) {
    forall k :: 0 <= k < |s| ==> IsDigit(s[k])
  }

  /** `s.startsWith(prefix)`. */
  predicate StartsWith(s: string, prefix: string) {
    |prefix| <= |s| && s[..|prefix|] == prefix
  }

  /** `n` copies of `c`. */
  function Repeat(c: char, n: nat): (r: string)
    ensures |r| == n
    ensures forall k :: 0 <= k < n ==> r[k] == c
  {
    if n == 0 then [] else [c] + Repeat(c, n - 1)
  }

  /** `s.padStart(width, fill)` for a one-character fill: the string is
      never truncated, and is prefixed with fill characters up to `width`. */
  function PadStart(s: string, width: nat, fill: char): (r: string)
    ensures |r| == if |s| >= width then |s| else width
    ensures r[|r| - |s|..] == s
    ensures forall k :: 0 <= k < |r| - |s| ==> r[k] == fill
  {
    if |s| >= width then s else Repeat(fill, width - |s|) + s
  }

  /** The first position holding `c`, if any. */
  function IndexOf(s: string, c: char): (r: Option<nat>)
    ensures r.Some? ==> r.value < |s| && s[r.value] == c
    ensures r.Some? ==> forall k :: 0 <= k < r.value ==> s[k] != c
    ensures r.None? ==> forall k :: 0 <= k < |s| ==> s[k] != c
  {
    if |s| == 0 then None
    else if s[0] == c then Some(0)
    else
      match IndexOf(s[1..], c)
      case None => None
      case Some(k) => Some(k + 1)
  }

  /** The last position holding `c`, if any. */
  function LastIndexOf(s: string, c: char): (r: Option<nat>)
    ensures r.Some? ==> r.value < |s| && s[r.value] == c
    ensures r.Some? ==> forall k :: r.value < k < |s| ==> s[k] != c
    ensures r.None? ==> forall k :: 0 <= k < |s| ==> s[k] != c
  {
    if |s| == 0 then None
    else if s[|s| - 1] == c then Some(|s| - 1)
    else LastIndexOf(s[..|s| - 1], c)
  }
}
